=== FILE: README.md ===
# Episode/character viewer: pagination and selection, modelled in Dafny

The viewer lists the episodes of a public catalogue on the left and the
characters of the selected episode on the right. Almost all of it is
rendering and fetch plumbing. This project models the two pieces of logic in
its components:

- **The character grid** (`CharacterGrid`) cuts the resolved character list
  into pages of twenty. It computes the `info` record (next page, previous
  page, page count) and renders Previous/Next buttons around a page-number
  strip. With more than three pages the strip always shows the first and
  the last page. The current page gets a button of its own only when it lies
  strictly between them, and its successor only when that is below the last
  page. Ellipses
  mark the gaps. On page 1 the strip is just `1 … last`.
- **The episode list** (`EpisodeList`) loads a page of episodes. It
  auto-selects the first episode while nothing is selected and reports every
  selection to its parent through `onSelect`. The user pages with
  Previous/Next links and numbered buttons.

Everything is immutable data and pure functions:

- `js.dfy` (`Js`): the JavaScript semantics the components rely on.
  - `null`/`0`/`""` truthiness.
  - Settled promises, either `Fulfilled(value)` or `Rejected`.
  - `Array.prototype.slice`, including negative indices.
  - `Math.ceil` of an integer quotient.
  - Number-to-string conversion for URLs.
- `paging.dfy` (`Paging`): page count, page window, next and previous page,
  and the proof that the windows of all pages concatenate back to the list.
- `page_controls.dfy` (`PageControls`): `renderPagination` as a sequence of
  `Page(number, active, clickable) | Ellipsis`, with its layout lemmas.
- `character_grid.dfy` (`CharacterGrid`): the grid's props and state, and
  these transitions:
  - a new `selectedEpisode` prop;
  - mount;
  - a page change;
  - Previous and Next clicks;
  - a click on a strip item;
  - the completion of a fetch.
- `episode_list.dfy` (`EpisodeList`): the list's state, and these
  transitions:
  - mount;
  - the completion of a load;
  - an episode click;
  - Previous, Next and numbered-button clicks.

  It also models the page-button strip.

A handler returns the new state together with the requests it starts. A
request is `Fetch(episode, page)` in the grid and `Load(url, pageNumber,
seenSelection)` in the list. Each completion is a separate function that
takes the request and an abstract outcome, so a response may be applied to
any later state. The list also returns every `onSelect` call as an entry of
`notified`, which lets a lemma say "reported exactly once".

Some behaviours are modelled as the code has them, not as a tidier design
would have them:

- **No stale-response guard.** Neither component checks a response against
  the request that is current. `CharacterGrid.Finish` applies a response
  whatever episode or page is current, and `ResponseIgnoresEpisode` states
  this. No lemma claims any guard.
- **Previous reads stale information.** The grid's Previous/Next guard reads
  `info` from the last *successful* load. A failed load leaves `info` stale,
  so Previous can move the page to 0 and below (`PreviousCanReachPageZero`).
  There `slice` receives negative bounds: page 0 is empty, and lower pages
  count back from the end of the list (`NegativePageCountsFromEnd`).
- **The selection is captured.** `loadEpisodes` reads the selection from the
  render that created the handler. `Load.seenSelection` records that value.
  The mount load saw no selection, so an episode clicked before the first
  page arrives is overridden by auto-select (`MountLoadOverridesEarlyClick`).
- **The episode list may auto-select more than once.** The code re-runs
  auto-select whenever the selection the load saw is falsy, including a
  selected id of 0. It is not limited to once per load sequence.
- **The episode list ignores failed loads.** When `getEpisodes` rejects
  (a network failure or a body that is not JSON), the rejection is unhandled
  and changes nothing. It is not turned into a displayed error.
- **Previous/Next depend on the links.** In the episode list they are
  disabled exactly when the response's link is null or empty. This is not
  tied to the current page number.

## Model

| member | source | states |
|---|---|---|
| Js.Slice | src/components/CharacterGrid.tsx:37 | with non-negative bounds the slice is the run of the list from `start` to `end`, cut at the list's end; an end at or before the start selects nothing |
| Js.CeilDiv | src/components/CharacterGrid.tsx:41 | `Math.ceil(n/d)` is the least block count holding `n`: `n <= r*d` and `(r-1)*d < n` |
| Paging.PageCount | src/components/CharacterGrid.tsx:43 | the page count is `ceil(N/20)`, and it is 0 exactly when there are no characters |
| Paging.Window | src/components/CharacterGrid.tsx:36-37 | a window never holds more than 20 characters, whatever the page number |
| Paging.NextMeansMoreToShow | src/components/CharacterGrid.tsx:37-41 | for any page from 0 on, `next` is set exactly when the following page has characters to show |
| Paging.NextPrevInverse | src/components/CharacterGrid.tsx:41-42 | on the real pages `next` and `prev` undo each other: prev of next is the page itself for `1 <= p < pages`, and next of prev is the page itself for `1 < p <= pages` |
| Paging.WindowContents | src/components/CharacterGrid.tsx:36-37 | page `p >= 1` shows the characters from position `(p-1)*20` on, in order; every page before the last is full; the last holds the remainder; later pages are empty |
| Paging.PageZeroIsEmpty | src/components/CharacterGrid.tsx:37 | page 0 (`slice(-20, 0)`) shows nothing |
| Paging.NegativePageCountsFromEnd | src/components/CharacterGrid.tsx:37 | on a list of at least `20(k+1)` characters, page `-k` shows the twenty characters ending `20k` before the end of the list |
| Paging.WindowIsRun | src/components/CharacterGrid.tsx:36-37 | the window of a real page is the slice of the list from `(p-1)*20`, ending at `p*20` before the last page and at the list's end on the last page |
| Paging.WindowsFromPage | src/components/CharacterGrid.tsx:36-43 | the windows of pages `p..pages` concatenate to the suffix of the list that page `p` starts |
| Paging.PagesCoverList | src/components/CharacterGrid.tsx:36-43 | the windows of pages `1..pages` concatenate back to the whole resolved list, in order |
| PageControls.Ascending | src/components/CharacterGrid.tsx:73-79 | the loop yields buttons `from..total` in order, each clickable, highlighted exactly when equal to the current page |
| PageControls.Pagination | src/components/CharacterGrid.tsx:68-121 | every shown page number lies in `1..total`; with at most three pages the strip is exactly pages `1..total` in order (empty for 0 pages), all clickable, no ellipsis |
| PageControls.ManyPagesShape | src/components/CharacterGrid.tsx:80-118 | with more than three pages the strip has one of seven exact shapes, fixed by where the current page sits |
| PageControls.AscendingLayout | src/components/CharacterGrid.tsx:72-79 | the few-pages strip starts at 1, ends at the page count, strictly increases, and has no gaps |
| PageControls.PaginationWellFormed | src/components/CharacterGrid.tsx:68-121 | for a current page in `1..total`: the strip starts with page 1 and ends with the last page; shown numbers strictly increase; neighbouring buttons differ by one; an ellipsis stands only between two buttons with a gap; the current page is shown; exactly one item is active, and it is the current page |
| PageControls.ActiveIndex | src/components/CharacterGrid.tsx:75-114 | the current page occupies one position of the strip, and that position alone is active |
| PageControls.EllipsisPlacement | src/components/CharacterGrid.tsx:87-111 | with more than three pages, an ellipsis precedes the current page iff `current > 2`, and one follows it iff `current+1 < total-1` |
| PageControls.HighlightIffInRange | src/components/CharacterGrid.tsx:75-114 | some item is active exactly when the current page lies in `1..total` |
| CharacterGrid.InfoFor | src/components/CharacterGrid.tsx:40-44 | the recorded page count is `ceil(N/20)`: it holds all characters and is 0 only for none; `next` is `page+1` when `page < pages` and null otherwise; `prev` is `page-1` when `page > 1` and null otherwise |
| CharacterGrid.Mount | src/components/CharacterGrid.tsx:21-63 | a mounted grid starts on page 1 with no characters and `info` of null links and zero pages; a truthy selection fetches page 1 twice (both effects run on mount) and a falsy one fetches nothing |
| CharacterGrid.MountShowsFirstPage | src/components/CharacterGrid.tsx:26-63 | a grid mounted with a truthy selection, once both page-1 fetches succeed, shows the first window of the list on page 1 with Previous disabled |
| CharacterGrid.SelectEpisode | src/components/CharacterGrid.tsx:52-63 | a new truthy episode resets the page to 1 and fetches only page 1: twice when the page was not 1, once otherwise; a null or zero episode fetches nothing and changes nothing else; an unchanged prop does nothing |
| CharacterGrid.NewEpisodeShowsFirstPage | src/components/CharacterGrid.tsx:26-57 | once every fetch a newly selected episode starts has succeeded on its character list, the grid is on page 1, shows the first window, records that page's `info`, has Previous disabled and is not loading |
| CharacterGrid.ChangePage | src/components/CharacterGrid.tsx:59-67 | the page becomes the requested one; exactly one fetch of it starts iff it changed and the selection is truthy |
| CharacterGrid.Finish | src/components/CharacterGrid.tsx:26-50 | loading ends false on both paths; on failure `characters` and `info` keep their values; on success they are the page's window and its info |
| CharacterGrid.ClickPrevious | src/components/CharacterGrid.tsx:148-156 | a disabled Previous does nothing; an enabled one moves to `currentPage-1`, keeps the selection, characters and `info`, and for a truthy selection fetches that page and shows loading |
| CharacterGrid.ClickNext | src/components/CharacterGrid.tsx:160-168 | a disabled Next does nothing; an enabled one moves to `currentPage+1`, keeps the selection, characters and `info`, and for a truthy selection fetches that page and shows loading |
| CharacterGrid.Controls | src/components/CharacterGrid.tsx:158 | every page button of the rendered strip points at a page of the last successful load |
| CharacterGrid.ClickControl | src/components/CharacterGrid.tsx:76-115 | a click on a strip button with a handler changes to its page; the current page's own button and the ellipses do nothing; the page never leaves `1..pages` through the strip |
| CharacterGrid.LoadedWindow | src/components/CharacterGrid.tsx:36-38 | after a successful load of page `p >= 1` the grid shows at most 20 characters, exactly 20 before the last page, taken in order from position `(p-1)*20` |
| CharacterGrid.ButtonsAfterLoad | src/components/CharacterGrid.tsx:148-166 | after a successful load of page `p`, Previous is disabled iff `p <= 1`, and Next is disabled iff `p >= pages` (for `p >= 0`) |
| CharacterGrid.ButtonsAfterFailure | src/components/CharacterGrid.tsx:45-49 | a failed load leaves the enablement of Previous and Next unchanged |
| CharacterGrid.NextThenPrevious | src/components/CharacterGrid.tsx:40-44 | Next then Previous, each followed by a successful load, return to the starting page, `info` and window |
| CharacterGrid.PreviousCanReachPageZero | src/components/CharacterGrid.tsx:148-156 | after a failed load Previous stays enabled on page 1, and a second click fetches page 0, whose window is empty |
| CharacterGrid.ResponseIgnoresEpisode | src/components/CharacterGrid.tsx:26-44 | the completion of a fetch does not depend on the episode it was fetched for |
| Js.NatToString | src/components/EpisodeList.tsx:48 | the page number is printed as decimal digits, most significant first, with no leading zero, that read back as the number |
| EpisodeList.PageUrl | src/components/EpisodeList.tsx:48 | the address of a numbered page is never empty, so it is always fetched as given |
| EpisodeList.OnlyMountUsesDefaultAddress | src/components/EpisodeList.tsx:24-50 | only the mount load falls back to the default address of `getEpisodes`; every load a Previous, Next or numbered-button click starts is fetched from its own URL |
| EpisodeList.Mount | src/components/EpisodeList.tsx:15-40 | mount starts on page 1 of 1 with no episodes, null links and nothing selected, and starts one load of the default address, with no page number and no seen selection |
| EpisodeList.Complete | src/components/EpisodeList.tsx:23-36 | a response replaces `episodes`, both links and `totalPages` with its own; a load that saw no selection auto-selects the first episode of a non-empty page and reports it exactly once, otherwise the selection stays and nothing is reported; the page changes only to a truthy page number; a rejection of `getEpisodes` changes nothing |
| EpisodeList.ClickEpisode | src/components/EpisodeList.tsx:42-45 | the selection becomes `id` and `onSelect(id)` is called exactly once; episodes, links and page stay, and nothing is loaded |
| EpisodeList.ClickPrevious | src/components/EpisodeList.tsx:75 | with a falsy `prevPage` nothing happens; otherwise one load of that link with page number `currentPage-1`, carrying the current selection |
| EpisodeList.ClickNext | src/components/EpisodeList.tsx:98 | with a falsy `nextPage` nothing happens; otherwise one load of that link with page number `currentPage+1`, carrying the current selection |
| EpisodeList.ClickPage | src/components/EpisodeList.tsx:47-50 | a numbered button starts one load of the page-`n` address with page number `n` |
| EpisodeList.PageButtons | src/components/EpisodeList.tsx:81-93 | the buttons are exactly `1..totalPages` in order, one per page, button `i` active iff `i == currentPage`; none for a negative count |
| EpisodeList.OneActiveButton | src/components/EpisodeList.tsx:84 | a button is active exactly when the current page lies in `1..totalPages`, and at most one is |
| EpisodeList.ClickHighlightsRow | src/components/EpisodeList.tsx:59-62 | after an episode click exactly the rows with that id are highlighted |
| EpisodeList.MountThenLoad | src/components/EpisodeList.tsx:29-40 | the mount load keeps page 1; a non-empty first page selects its first episode and reports it once; an empty one selects and reports nothing |
| EpisodeList.FirstPageSelectsFirstEpisode | src/components/EpisodeList.tsx:29-33 | a first page with episodes 1 and 2 selects episode 1 and reports it exactly once |
| EpisodeList.MountLoadOverridesEarlyClick | src/components/EpisodeList.tsx:29-45 | an episode clicked before the first page arrives is replaced by that page's first episode, and both are reported in that order |
| EpisodeList.SelectionSticks | src/components/EpisodeList.tsx:29 | a load started while a selection exists never changes the selection or reports anything, whatever state it completes on |
| EpisodeList.PreviousNextMovePage | src/components/EpisodeList.tsx:34 | Previous/Next load their link, and once the response arrives the page is one lower or one higher, unless that number is the falsy 0 |
| EpisodeList.PageButtonRoundTrip | src/components/EpisodeList.tsx:47-50 | clicking button `n`, then a successful load, makes `n` the current page, and button `n` alone is active |
| EpisodeList.PageStaysPositive | src/components/EpisodeList.tsx:19 | the page number never drops below 1: mount starts at 1, handlers start only loads with non-negative page numbers, and completions keep the page at 1 or above |

## Left out

- The data-access wrapper (`src/services/api.ts`) is not part of this model. Its two functions are thin `fetch`/`response.json()` calls with no logic, and the model uses abstract outcomes in their place.
- The root view (`src/App.tsx`) is not part of this model. It hands the grid a `characterUrls` prop that the grid's props do not declare, so there is no coherent contract to model.
- The network calls of the grid, including the `Promise.all` fan-out over character URLs, are collapsed into one all-or-nothing `Settled` outcome per fetch. A failure anywhere is `Rejected`, and success is the whole list in the episode's order.
- React scheduling beyond the effect dependency rules is left out: batching, render timing and when a response arrives relative to other events. Callers choose the order of transitions.
- There is no stale-response guard because the code has none. The model does not add one.
- JSX markup, class strings other than active/disabled, `console.error` logging and the character cards are left out. The "Loading..." and "No characters found" views only read `loading` and `characters`, which the model carries.
- Numbers are integers. `NaN` and fractional page numbers are not modelled. `Math.ceil(length / 20)` is modelled as the integer ceiling: for any array length (below 2^32) a multiple of 20 gives an exact quotient, and any other quotient lies at least 1/20 from an integer, far more than the rounding error of the double division, so rounding never changes the ceiling.
- EpisodeList.Complete: only a well-formed page or a rejection of `getEpisodes` is modelled. The data-access wrapper passes `data.results` and `data.info` through unchecked, and `fetch` does not reject on an HTTP error status. So a JSON error body without `results`/`info` would set `episodes` to undefined, throw while reading `info.next`, and break the next render. The model's outcome type cannot express that partial update.
- Episode and character records are treated as plain values. Their other response fields are ignored, as the components ignore them.

=== FILE: character_grid.dfy ===
/** The character grid: given the selected episode, it fetches that episode's
    characters, shows one window of twenty of them, and offers Previous/Next
    buttons and a page-number strip. Each handler returns the new state and
    the fetches it starts; a fetch's completion is a separate transition,
    so responses may arrive in any order and at any later time. */
module CharacterGrid {
  import opened Js
  import opened Paging
  import opened PageControls

  datatype Character = Character(id: int, name: string, image: string)

  /** The `info` state: next and previous page numbers (or null) and the
      page count of the last successful load. */
  datatype Info = Info(next: Option<int>, prev: Option<int>, pages: nat)

  /** The component's props and state. */
  datatype Grid = Grid(
    selectedEpisode: Option<int>,
    characters: seq<Character>,
    info: Info,
    currentPage: int,
    loading: bool)

  /** A call `fetchCharactersForEpisode(episode, page)`. */
  datatype Fetch = Fetch(episode: int, page: int)

  /** The state after a handler, with the fetches it started, in order. */
  datatype Step = Step(grid: Grid, fetches: seq<Fetch>)

  /** The initial state: no characters, no links, zero pages, page 1. */
  function Initial(selected: Option<int>): Grid {
    Grid(selected, [], Info(None, None, 0), 1, false)
  }

  /** The `info` a successful load of `page` records for `count` characters. */
  function InfoFor(page: int, count: nat): (info: Info)
    ensures info.pages == PageCount(count)
    ensures info.pages * PageSize >= count
    ensures info.pages == 0 <==> count == 0
    ensures info.next.Some? <==> page < info.pages
    ensures info.next.Some? ==> info.next.value == page + 1
    ensures info.prev.Some? <==> page > 1
    ensures info.prev.Some? ==> info.prev.value == page - 1
  {
    Info(NextPage(page, count), PrevPage(page), PageCount(count))
  }

  /** The state once the effects of the first render have run: the episode
      effect and the page effect both run on mount, so a truthy selection
      fetches page 1 twice. */
  function Mount(selected: Option<int>): (s: Step)
    ensures s.grid.currentPage == 1 && s.grid.characters == [] && s.grid.info == Info(None, None, 0)
    ensures s.grid.selectedEpisode == selected
    ensures TruthyNumber(selected) ==>
      s.fetches == [Fetch(selected.value, 1), Fetch(selected.value, 1)]
    ensures !TruthyNumber(selected) ==> s.fetches == []
    ensures s.grid.loading <==> s.fetches != []
  {
    var g := Initial(selected);
    if TruthyNumber(selected) then
      Step(g.(loading := true), [Fetch(selected.value, 1), Fetch(selected.value, 1)])
    else
      Step(g, [])
  }

  /** A new `selectedEpisode` prop. The episode effect runs only when the
      value differs from the previous one; for a truthy id it resets the page
      to 1 and fetches page 1, and when the page was not already 1 the reset
      re-runs the page effect, which fetches page 1 once more. A null or zero
      id starts nothing and changes nothing else. */
  function SelectEpisode(g: Grid, selected: Option<int>): (s: Step)
    ensures s.grid.selectedEpisode == selected
    ensures s.grid.characters == g.characters && s.grid.info == g.info
    ensures selected == g.selectedEpisode ==> s == Step(g, [])
    ensures selected != g.selectedEpisode && TruthyNumber(selected) ==>
      && s.grid.currentPage == 1
      && s.grid.loading
      && |s.fetches| == (if g.currentPage != 1 then 2 else 1)
      && (forall i :: 0 <= i < |s.fetches| ==> s.fetches[i] == Fetch(selected.value, 1))
    ensures !TruthyNumber(selected) ==> s.fetches == [] && s.grid == g.(selectedEpisode := selected)
  {
    if selected == g.selectedEpisode then
      Step(g, [])
    else if TruthyNumber(selected) then
      var again := if g.currentPage != 1 then [Fetch(selected.value, 1)] else [];
      var reset := g.(selectedEpisode := selected, currentPage := 1, loading := true);
      Step(reset, [Fetch(selected.value, 1)] + again)
    else
      Step(g.(selectedEpisode := selected), [])
  }

  /** `handlePageChange(page)`: the page becomes `page`; if that changed it,
      the page effect fetches the new page for a truthy selection. */
  function ChangePage(g: Grid, page: int): (s: Step)
    ensures s.grid.currentPage == page
    ensures s.grid.selectedEpisode == g.selectedEpisode
    ensures s.grid.characters == g.characters && s.grid.info == g.info
    ensures s.fetches != [] <==> page != g.currentPage && TruthyNumber(g.selectedEpisode)
    ensures s.fetches != [] ==>
      s.fetches == [Fetch(g.selectedEpisode.value, page)] && s.grid.loading
    ensures s.fetches == [] ==> s.grid.loading == g.loading
  {
    if page == g.currentPage then
      Step(g, [])
    else if TruthyNumber(g.selectedEpisode) then
      Step(g.(currentPage := page, loading := true), [Fetch(g.selectedEpisode.value, page)])
    else
      Step(g.(currentPage := page), [])
  }

  /** The completion of `fetchCharactersForEpisode(_, page)`: on success the
      shown window and `info` come from the whole resolved list; on any
      failure both keep their previous values. Loading ends either way. The
      response is applied whichever episode it was for and whatever page is
      current now. */
  function Finish(g: Grid, f: Fetch, outcome: Settled<seq<Character>>): (g': Grid)
    ensures !g'.loading
    ensures g'.selectedEpisode == g.selectedEpisode && g'.currentPage == g.currentPage
    ensures outcome.Rejected? ==> g'.characters == g.characters && g'.info == g.info
    ensures outcome.Fulfilled? ==>
      && g'.characters == Window(outcome.value, f.page)
      && g'.info == InfoFor(f.page, |outcome.value|)
  {
    match outcome
    case Fulfilled(all) =>
      g.(characters := Window(all, f.page), info := InfoFor(f.page, |all|), loading := false)
    case Rejected =>
      g.(loading := false)
  }

  /** The Previous button is disabled while `info.prev` is falsy. */
  predicate PreviousDisabled(g: Grid) {
    !TruthyNumber(g.info.prev)
  }

  /** The Next button is disabled while `info.next` is falsy. */
  predicate NextDisabled(g: Grid) {
    !TruthyNumber(g.info.next)
  }

  /** A click on Previous: a disabled button does nothing, an enabled one
      moves to the page before the current one. */
  function ClickPrevious(g: Grid): (s: Step)
    ensures PreviousDisabled(g) ==> s == Step(g, [])
    ensures !PreviousDisabled(g) ==>
      && s.grid.currentPage == g.currentPage - 1
      && s.grid.selectedEpisode == g.selectedEpisode
      && s.grid.characters == g.characters && s.grid.info == g.info
      && s.grid.loading == (s.fetches != [] || g.loading)
      && (s.fetches != [] <==> TruthyNumber(g.selectedEpisode))
      && (s.fetches != [] ==> s.fetches == [Fetch(g.selectedEpisode.value, g.currentPage - 1)])
  {
    if PreviousDisabled(g) then Step(g, []) else ChangePage(g, g.currentPage - 1)
  }

  /** A click on Next: a disabled button does nothing, an enabled one moves
      to the page after the current one. */
  function ClickNext(g: Grid): (s: Step)
    ensures NextDisabled(g) ==> s == Step(g, [])
    ensures !NextDisabled(g) ==>
      && s.grid.currentPage == g.currentPage + 1
      && s.grid.selectedEpisode == g.selectedEpisode
      && s.grid.characters == g.characters && s.grid.info == g.info
      && s.grid.loading == (s.fetches != [] || g.loading)
      && (s.fetches != [] <==> TruthyNumber(g.selectedEpisode))
      && (s.fetches != [] ==> s.fetches == [Fetch(g.selectedEpisode.value, g.currentPage + 1)])
  {
    if NextDisabled(g) then Step(g, []) else ChangePage(g, g.currentPage + 1)
  }

  /** The completions of `fetches`, in order, all with the same outcome. */
  function FinishEach(g: Grid, fetches: seq<Fetch>, outcome: Settled<seq<Character>>): (g': Grid)
    ensures fetches == [] ==> g' == g
    ensures g'.selectedEpisode == g.selectedEpisode && g'.currentPage == g.currentPage
    ensures fetches != [] ==> !g'.loading
    decreases |fetches|
  {
    if fetches == [] then g else FinishEach(Finish(g, fetches[0], outcome), fetches[1..], outcome)
  }

  /** Once every page-1 fetch of a newly selected episode has succeeded on
      the episode's character list, the grid is on page 1, shows the first
      window of that list, records its `info` and has Previous disabled. The
      fetches are all for page 1, so their completion order does not matter. */
  lemma NewEpisodeShowsFirstPage(g: Grid, selected: Option<int>, all: seq<Character>)
    requires TruthyNumber(selected) && selected != g.selectedEpisode
    ensures var s := SelectEpisode(g, selected);
      var g' := FinishEach(s.grid, s.fetches, Fulfilled(all));
      && g'.currentPage == 1
      && g'.characters == Window(all, 1)
      && g'.info == InfoFor(1, |all|)
      && PreviousDisabled(g')
      && !g'.loading
  {
    var s := SelectEpisode(g, selected);
    var g1 := Finish(s.grid, s.fetches[0], Fulfilled(all));
    assert s.fetches[1..] == [] || s.fetches[1..] == [Fetch(selected.value, 1)];
    if s.fetches[1..] != [] {
      var g2 := Finish(g1, Fetch(selected.value, 1), Fulfilled(all));
      assert FinishEach(g1, s.fetches[1..], Fulfilled(all)) == FinishEach(g2, [], Fulfilled(all));
    }
  }

  /** The same for a grid mounted with a truthy selection: both page-1
      fetches succeeding leaves page 1 shown with Previous disabled. */
  lemma MountShowsFirstPage(selected: Option<int>, all: seq<Character>)
    requires TruthyNumber(selected)
    ensures var s := Mount(selected);
      var g' := FinishEach(s.grid, s.fetches, Fulfilled(all));
      && g'.currentPage == 1
      && g'.characters == Window(all, 1)
      && g'.info == InfoFor(1, |all|)
      && PreviousDisabled(g')
      && !g'.loading
  {
    var s := Mount(selected);
    var g1 := Finish(s.grid, s.fetches[0], Fulfilled(all));
    assert s.fetches[1..] == [Fetch(selected.value, 1)];
    var g2 := Finish(g1, Fetch(selected.value, 1), Fulfilled(all));
    assert FinishEach(g1, s.fetches[1..], Fulfilled(all)) == FinishEach(g2, [], Fulfilled(all));
  }

  /** The page-number strip as rendered for the current state. */
  function Controls(g: Grid): (r: seq<Control>)
    ensures forall i :: 0 <= i < |r| && r[i].Page? ==> 1 <= r[i].number <= g.info.pages
  {
    Pagination(g.currentPage, g.info.pages)
  }

  /** A click on an item of the strip: a button with a handler changes the
      page to its number; the current page's own button in the many-pages
      layout and the ellipses have none. Whatever is clicked, the page stays
      within the page count of the last successful load. */
  function ClickControl(g: Grid, c: Control): (s: Step)
    requires c in Controls(g)
    ensures c.Page? && c.clickable ==> s == ChangePage(g, c.number)
    ensures !(c.Page? && c.clickable) ==> s == Step(g, [])
    ensures s.grid.currentPage == g.currentPage || 1 <= s.grid.currentPage <= g.info.pages
  {
    if c.Page? && c.clickable then ChangePage(g, c.number) else Step(g, [])
  }

  /** After a successful load of page `page` (1 or later), the grid shows at
      most twenty characters, exactly twenty on every page before the last,
      and those are the characters at positions `(page-1)*20` onwards. */
  lemma LoadedWindow(g: Grid, f: Fetch, all: seq<Character>)
    requires f.page >= 1
    ensures var g' := Finish(g, f, Fulfilled(all));
      && |g'.characters| <= PageSize
      && (f.page < g'.info.pages ==> |g'.characters| == PageSize)
      && (forall i :: 0 <= i < |g'.characters| ==>
            && (f.page - 1) * PageSize + i < |all|
            && g'.characters[i] == all[(f.page - 1) * PageSize + i])
  {
    WindowContents(all, f.page);
  }

  /** After a successful load of page `page`, Previous is disabled exactly
      when `page <= 1`, and for any page from 0 on, Next is disabled exactly
      when `page` is the last page or beyond. */
  lemma ButtonsAfterLoad(g: Grid, f: Fetch, all: seq<Character>)
    ensures var g' := Finish(g, f, Fulfilled(all));
      && (PreviousDisabled(g') <==> f.page <= 1)
      && (f.page >= 0 ==> (NextDisabled(g') <==> f.page >= PageCount(|all|)))
  {
  }

  /** A failed load leaves both buttons as they were. */
  lemma ButtonsAfterFailure(g: Grid, f: Fetch)
    ensures var g' := Finish(g, f, Rejected);
      && (PreviousDisabled(g') <==> PreviousDisabled(g))
      && (NextDisabled(g') <==> NextDisabled(g))
  {
  }

  /** Next then Previous, each followed by a successful load of the same
      character list, returns to the page and window the grid started from. */
  lemma NextThenPrevious(g: Grid, all: seq<Character>)
    requires TruthyNumber(g.selectedEpisode)
    requires g.currentPage >= 1
    requires g.info == InfoFor(g.currentPage, |all|)
    requires g.currentPage < PageCount(|all|)
    ensures var s1 := ClickNext(g);
      && s1.fetches == [Fetch(g.selectedEpisode.value, g.currentPage + 1)]
      && var g1 := Finish(s1.grid, s1.fetches[0], Fulfilled(all));
      && var s2 := ClickPrevious(g1);
      && s2.fetches == [Fetch(g.selectedEpisode.value, g.currentPage)]
      && var g2 := Finish(s2.grid, s2.fetches[0], Fulfilled(all));
      && g2.currentPage == g.currentPage
      && g2.info == g.info
      && g2.characters == Window(all, g.currentPage)
  {
  }

  /** The Previous guard reads `info` from the last successful load, not the
      current page: after a successful load of page 2, a click on Previous
      whose load fails leaves Previous enabled on page 1, and a second click
      moves to page 0, whose window is empty. */
  lemma PreviousCanReachPageZero(episode: int, all: seq<Character>)
    requires episode != 0
    requires |all| > PageSize
    ensures var g := Finish(Grid(Some(episode), [], Info(None, None, 0), 2, true),
                            Fetch(episode, 2), Fulfilled(all));
      && var s1 := ClickPrevious(g);
      && s1.grid.currentPage == 1
      && var g1 := Finish(s1.grid, s1.fetches[0], Rejected);
      && !PreviousDisabled(g1)
      && var s2 := ClickPrevious(g1);
      && s2.grid.currentPage == 0
      && s2.fetches == [Fetch(episode, 0)]
      && Finish(s2.grid, s2.fetches[0], Fulfilled(all)).characters == []
  {
    PageZeroIsEmpty(all);
  }

  /** A response is applied whatever episode it was fetched for: nothing ties
      a completion to the episode selected now. This holds by construction,
      since `Finish` never reads the fetch's episode; it is stated to record
      that no stale-response guard exists. */
  lemma ResponseIgnoresEpisode(g: Grid, e1: int, e2: int, page: int,
                               outcome: Settled<seq<Character>>)
    ensures Finish(g, Fetch(e1, page), outcome) == Finish(g, Fetch(e2, page), outcome)
  {
  }
}

=== FILE: episode_list.dfy ===
/** The episode list: it loads a page of episodes, lets the user pick one
    (reporting the pick through `onSelect`) and page through the list with
    Previous/Next links and numbered buttons. A handler that loads returns
    the load it starts; the load's completion is a separate transition. Each
    call of `onSelect` is returned as an entry of `notified`. */
module EpisodeList {
  import opened Js

  datatype Episode = Episode(id: int, name: string, code: string)

  /** The `info` part of a response: next and previous page links (or null)
      and the page count. */
  datatype PageInfo = PageInfo(next: Option<string>, prev: Option<string>, pages: int)

  /** A response of `getEpisodes`. */
  datatype EpisodePage = EpisodePage(results: seq<Episode>, info: PageInfo)

  /** The component's state. */
  datatype List = List(
    episodes: seq<Episode>,
    nextPage: Option<string>,
    prevPage: Option<string>,
    currentPage: int,
    totalPages: int,
    selected: Option<int>)

  /** A call `loadEpisodes(url, pageNumber)`. `seenSelection` is the
      selection in the render the calling handler belongs to: the completion
      consults that captured value, not the selection current when the
      response arrives. */
  datatype Load = Load(url: Option<string>, pageNumber: Option<int>, seenSelection: Option<int>)

  /** The state after a handler or completion, the loads it started, and the
      ids passed to `onSelect`, in order. */
  datatype Step = Step(list: List, loads: seq<Load>, notified: seq<int>)

  /** A numbered page button: its page and whether it is highlighted. */
  datatype Button = Button(number: int, active: bool)

  /** The initial state: nothing loaded, page 1 of 1, nothing selected. */
  const Initial: List := List([], None, None, 1, 1, None)

  /** The page-`n` address a numbered button loads. */
  function PageUrl(n: int): (u: string)
    ensures |u| > 0
  {
    "https://rickandmortyapi.com/api/episode?page=" + IntToString(n)
  }

  /** `url || undefined`: the address `getEpisodes` is called with, `None`
      standing for its default (the first page of the episode endpoint). */
  function RequestUrl(l: Load): (r: Option<string>)
    ensures r.Some? <==> TruthyString(l.url)
    ensures r.Some? ==> r == l.url
  {
    if TruthyString(l.url) then l.url else None
  }

  /** Mount: the effect loads the default address with no page number, from
      the initial render, which sees no selection. */
  function Mount(): (s: Step)
    ensures s.list.currentPage == 1 && s.list.selected.None? && s.list.episodes == []
    ensures s.list.totalPages == 1 && s.list.nextPage.None? && s.list.prevPage.None?
    ensures |s.loads| == 1 && RequestUrl(s.loads[0]).None?
    ensures s.loads[0].pageNumber.None? && s.loads[0].seenSelection.None?
    ensures s.notified == []
  {
    Step(Initial, [Load(None, None, None)], [])
  }

  /** Whether a completed load picks the first episode: only when the
      selection its handler saw is falsy and the page is not empty. */
  predicate AutoSelects(l: Load, page: EpisodePage) {
    !TruthyNumber(l.seenSelection) && |page.results| > 0
  }

  /** The completion of a load. A rejected load (the source leaves the
      rejection unhandled) changes nothing. A response replaces the episodes,
      both links and the page count with its own; auto-selects its first
      episode if the load saw no selection, reporting it exactly once; and
      moves to the load's page number when that is truthy. */
  function Complete(s: List, l: Load, outcome: Settled<EpisodePage>): (r: Step)
    ensures r.loads == []
    ensures outcome.Rejected? ==> r.list == s && r.notified == []
    ensures outcome.Fulfilled? ==>
      && r.list.episodes == outcome.value.results
      && r.list.nextPage == outcome.value.info.next
      && r.list.prevPage == outcome.value.info.prev
      && r.list.totalPages == outcome.value.info.pages
    // auto-select
    ensures outcome.Fulfilled? && AutoSelects(l, outcome.value) ==>
      && r.list.selected == Some(outcome.value.results[0].id)
      && r.notified == [outcome.value.results[0].id]
    ensures outcome.Fulfilled? && !AutoSelects(l, outcome.value) ==>
      r.list.selected == s.selected && r.notified == []
    // the page number
    ensures outcome.Fulfilled? && TruthyNumber(l.pageNumber) ==>
      r.list.currentPage == l.pageNumber.value
    ensures !(outcome.Fulfilled? && TruthyNumber(l.pageNumber)) ==>
      r.list.currentPage == s.currentPage
  {
    match outcome
    case Rejected => Step(s, [], [])
    case Fulfilled(page) =>
      var loaded := s.(episodes := page.results, nextPage := page.info.next,
                       prevPage := page.info.prev, totalPages := page.info.pages);
      var picked :=
        if AutoSelects(l, page) then loaded.(selected := Some(page.results[0].id)) else loaded;
      var paged :=
        if TruthyNumber(l.pageNumber) then picked.(currentPage := l.pageNumber.value) else picked;
      Step(paged, [], if AutoSelects(l, page) then [page.results[0].id] else [])
  }

  /** `handleEpisodeClick(id)`: the selection becomes `id` and `onSelect(id)`
      is called once; episodes, links and page are untouched and nothing is
      loaded. */
  function ClickEpisode(s: List, id: int): (r: Step)
    ensures r.list.selected == Some(id) && r.notified == [id] && r.loads == []
    ensures r.list.episodes == s.episodes && r.list.currentPage == s.currentPage
    ensures r.list.nextPage == s.nextPage && r.list.prevPage == s.prevPage
    ensures r.list.totalPages == s.totalPages
  {
    Step(s.(selected := Some(id)), [], [id])
  }

  /** An episode row is highlighted when its id is the selection. */
  predicate Highlighted(s: List, e: Episode) {
    s.selected == Some(e.id)
  }

  /** The Previous link: does nothing while `prevPage` is falsy, otherwise
      loads that link with page number `currentPage - 1`. */
  function ClickPrevious(s: List): (r: Step)
    ensures r.list == s && r.notified == []
    ensures !TruthyString(s.prevPage) ==> r.loads == []
    ensures TruthyString(s.prevPage) ==>
      r.loads == [Load(s.prevPage, Some(s.currentPage - 1), s.selected)]
  {
    if TruthyString(s.prevPage) then
      Step(s, [Load(s.prevPage, Some(s.currentPage - 1), s.selected)], [])
    else Step(s, [], [])
  }

  /** The Next link: does nothing while `nextPage` is falsy, otherwise loads
      that link with page number `currentPage + 1`. */
  function ClickNext(s: List): (r: Step)
    ensures r.list == s && r.notified == []
    ensures !TruthyString(s.nextPage) ==> r.loads == []
    ensures TruthyString(s.nextPage) ==>
      r.loads == [Load(s.nextPage, Some(s.currentPage + 1), s.selected)]
  {
    if TruthyString(s.nextPage) then
      Step(s, [Load(s.nextPage, Some(s.currentPage + 1), s.selected)], [])
    else Step(s, [], [])
  }

  /** `handlePageClick(n)`: loads the page-`n` address with page number `n`. */
  function ClickPage(s: List, n: int): (r: Step)
    ensures r.list == s && r.notified == []
    ensures |r.loads| == 1
    ensures r.loads[0].pageNumber == Some(n) && r.loads[0].seenSelection == s.selected
    ensures RequestUrl(r.loads[0]) == Some(PageUrl(n))
  {
    Step(s, [Load(Some(PageUrl(n)), Some(n), s.selected)], [])
  }

  /** `Array.from({ length: totalPages })` mapped to buttons `1..totalPages`;
      a count below zero gives no buttons. */
  function PageButtons(s: List): (b: seq<Button>)
    ensures |b| == if s.totalPages < 0 then 0 else s.totalPages
    ensures forall i :: 0 <= i < |b| ==> b[i] == Button(i + 1, s.currentPage == i + 1)
  {
    ButtonsFrom(1, s.totalPages, s.currentPage)
  }

  function ButtonsFrom(from: int, total: int, current: int): (b: seq<Button>)
    ensures |b| == if from <= total then total - from + 1 else 0
    ensures forall i :: 0 <= i < |b| ==> b[i] == Button(from + i, current == from + i)
    decreases total - from
  {
    if from > total then []
    else [Button(from, current == from)] + ButtonsFrom(from + 1, total, current)
  }

  /** Some button is highlighted exactly when the current page is one of
      `1..totalPages`, and then it is the only one. */
  lemma OneActiveButton(s: List)
    ensures var b := PageButtons(s);
      && ((exists i :: 0 <= i < |b| && b[i].active) <==> 1 <= s.currentPage <= s.totalPages)
      && (forall i, j :: 0 <= i < |b| && 0 <= j < |b| && b[i].active && b[j].active ==> i == j)
  {
    var b := PageButtons(s);
    if 1 <= s.currentPage <= s.totalPages {
      assert b[s.currentPage - 1].active;
    }
  }

  /** After a click on an episode row, exactly the rows with that id are
      highlighted. */
  lemma ClickHighlightsRow(s: List, id: int)
    ensures var s' := ClickEpisode(s, id).list;
      forall e :: e in s'.episodes ==> (Highlighted(s', e) <==> e.id == id)
  {
  }

  /** The first load after mount keeps page 1: it carries no page number.
      If its page is not empty the first episode is selected and reported
      exactly once; an empty page selects and reports nothing. */
  lemma MountThenLoad(page: EpisodePage)
    ensures var m := Mount();
      && var r := Complete(m.list, m.loads[0], Fulfilled(page));
      && r.list.currentPage == 1
      && r.list.episodes == page.results
      && (|page.results| > 0 ==>
            r.list.selected == Some(page.results[0].id) && r.notified == [page.results[0].id])
      && (|page.results| == 0 ==> r.list.selected.None? && r.notified == [])
  {
  }

  /** The first page arriving with episodes 1 and 2 selects episode 1 and
      reports it once: a concrete instance of `MountThenLoad`. */
  lemma FirstPageSelectsFirstEpisode(a: string, b: string, info: PageInfo)
    ensures var m := Mount();
      var first := EpisodePage([Episode(1, a, "S01E01"), Episode(2, b, "S01E02")], info);
      var r := Complete(m.list, m.loads[0], Fulfilled(first));
      r.list.selected == Some(1) && r.notified == [1]
  {
  }

  /** The mount load captured the initial, empty selection: an episode
      clicked before the first page arrives is replaced by that page's first
      episode, which is reported as well. */
  lemma MountLoadOverridesEarlyClick(id: int, page: EpisodePage)
    requires |page.results| > 0
    ensures var m := Mount();
      && var c := ClickEpisode(m.list, id);
      && var r := Complete(c.list, m.loads[0], Fulfilled(page));
      && c.notified + r.notified == [id, page.results[0].id]
      && r.list.selected == Some(page.results[0].id)
  {
  }

  /** Once a selection exists, a load any handler starts from that state
      neither changes the selection nor calls `onSelect` when it completes,
      whatever state it completes on and whatever page arrives. */
  lemma SelectionSticks(s: List, n: int, later: List, page: EpisodePage)
    requires TruthyNumber(s.selected)
    ensures forall l :: l in ClickPrevious(s).loads + ClickNext(s).loads + ClickPage(s, n).loads ==>
      var r := Complete(later, l, Fulfilled(page));
      r.list.selected == later.selected && r.notified == []
  {
  }

  /** Previous and Next, when their link is truthy, load it; once the
      response arrives the page is one lower, respectively one higher —
      unless that number is 0, which is falsy and leaves the page alone. */
  lemma PreviousNextMovePage(s: List, page: EpisodePage)
    ensures TruthyString(s.prevPage) ==>
      var l := ClickPrevious(s).loads[0];
      && RequestUrl(l) == s.prevPage
      && Complete(s, l, Fulfilled(page)).list.currentPage
           == (if s.currentPage == 1 then s.currentPage else s.currentPage - 1)
    ensures TruthyString(s.nextPage) ==>
      var l := ClickNext(s).loads[0];
      && RequestUrl(l) == s.nextPage
      && Complete(s, l, Fulfilled(page)).list.currentPage
           == (if s.currentPage == -1 then s.currentPage else s.currentPage + 1)
  {
  }

  /** Only the mount load falls back to the default address of
      `getEpisodes`: every load a Previous, Next or numbered-button click
      starts is fetched from its own URL. */
  lemma OnlyMountUsesDefaultAddress(s: List, n: int)
    ensures RequestUrl(Mount().loads[0]).None?
    ensures forall l :: l in ClickPrevious(s).loads + ClickNext(s).loads + ClickPage(s, n).loads ==>
      RequestUrl(l) == l.url && l.url.Some?
  {
  }

  /** A click on button `n` followed by a successful load makes `n` the
      current page, and the button strip then highlights button `n` alone. */
  lemma PageButtonRoundTrip(s: List, n: int, page: EpisodePage)
    requires 1 <= n <= page.info.pages
    ensures var r := Complete(s, ClickPage(s, n).loads[0], Fulfilled(page));
      && r.list.currentPage == n
      && var b := PageButtons(r.list);
      && b[n - 1].active
      && (forall i :: 0 <= i < |b| && i != n - 1 ==> !b[i].active)
  {
  }

  /** A state the component can be in: the page number is at least 1. */
  predicate Valid(s: List) {
    s.currentPage >= 1
  }

  /** A load a handler of a valid state can start: its page number, if any,
      is not negative. */
  predicate ValidLoad(l: Load) {
    l.pageNumber.None? || l.pageNumber.value >= 0
  }

  /** The page number never drops below 1: mount starts valid, every handler
      of a valid state starts only valid loads (numbered buttons pass
      `1..totalPages`), and completing a valid load keeps the state valid. */
  lemma PageStaysPositive(s: List, l: Load, outcome: Settled<EpisodePage>, n: int)
    requires Valid(s) && ValidLoad(l) && n >= 1
    ensures Valid(Mount().list) && ValidLoad(Mount().loads[0])
    ensures var started := ClickPrevious(s).loads + ClickNext(s).loads + ClickPage(s, n).loads;
      forall l' :: l' in started ==> ValidLoad(l')
    ensures Valid(Complete(s, l, outcome).list)
  {
  }
}

=== FILE: js.dfy ===
/** The few JavaScript semantics the two components rely on: nullable values
    and their truthiness, settled promises, `Array.prototype.slice`,
    `Math.ceil` of an integer quotient and number-to-string conversion. */
module Js {

  /** A value of type `T | null`. */
  datatype Option<+T> = None | Some(value: T)

  /** A settled promise: the awaited value, or a rejection (a failed fetch,
      a malformed response body, any exception thrown inside the `try`). */
  datatype Settled<+T> = Fulfilled(value: T) | Rejected

  /** `number | null` in a boolean context: `null` and `0` are falsy. */
  predicate TruthyNumber(x: Option<int>) {
    x.Some? && x.value != 0
  }

  /** `string | null` in a boolean context: `null` and `""` are falsy. */
  predicate TruthyString(x: Option<string>) {
    x.Some? && x.value != ""
  }

  function Min(a: int, b: int): int {
    if a <= b then a else b
  }

  /** How `slice` turns an integral argument into a position of a sequence of
      length `len`: a negative argument counts back from the end, and the
      result is clamped to `0..len`. */
  function ClampIndex(i: int, len: nat): (r: nat)
    ensures r <= len
    ensures 0 <= i ==> r == Min(i, len)
    ensures i < 0 && -i <= len ==> r == len + i
    ensures i < 0 && len < -i ==> r == 0
  {
    if i < 0 then (if len + i < 0 then 0 else len + i)
    else if i > len then len
    else i
  }

  /** `s.slice(start, end)` for integral `start` and `end`. */
  function Slice<T>(s: seq<T>, start: int, end: int): (r: seq<T>)
    ensures |r| <= |s|
    // with non-negative bounds: the run of s from start up to end, cut at |s|
    ensures 0 <= start <= end ==> |r| == Min(end, |s|) - Min(start, |s|)
    ensures 0 <= start ==> forall i :: 0 <= i < |r| ==> start + i < |s| && r[i] == s[start + i]
    // an end at or before the start selects nothing
    ensures 0 <= end <= start ==> r == []
  {
    var k := ClampIndex(start, |s|);
    var f := ClampIndex(end, |s|);
    if k < f then s[k..f] else []
  }

  /** `Math.ceil(n / d)` for a natural `n` and a positive `d`: the least
      number of blocks of `d` that hold `n`. */
  function CeilDiv(n: nat, d: nat): (r: nat)
    requires d > 0
    ensures n <= r * d
    ensures r == 0 || (r - 1) * d < n
  {
    var q := (n + d - 1) / d;
    assert q * d <= n + d - 1 < (q + 1) * d;
    q
  }

  /** The decimal digit of `d`. */
  function Digit(d: nat): (c: char)
    requires d < 10
    ensures '0' <= c <= '9'
    ensures c as int - '0' as int == d
  {
    "0123456789"[d]
  }

  /** The number a string of decimal digits stands for, most significant
      digit first. */
  function DecimalValue(s: string): nat
    requires forall i :: 0 <= i < |s| ==> '0' <= s[i] <= '9'
  {
    if s == [] then 0
    else DecimalValue(s[..|s| - 1]) * 10 + (s[|s| - 1] as int - '0' as int)
  }

  /** The decimal digits of a natural number, most significant first, as a
      JavaScript template literal prints it: the digits read back as `n`,
      and there is no leading zero. */
  function NatToString(n: nat): (r: string)
    ensures |r| > 0
    ensures forall i :: 0 <= i < |r| ==> '0' <= r[i] <= '9'
    ensures DecimalValue(r) == n
    ensures r[0] == '0' ==> n == 0
    decreases n
  {
    if n < 10 then [Digit(n)]
    else
      var r := NatToString(n / 10) + [Digit(n % 10)];
      assert r[..|r| - 1] == NatToString(n / 10);
      r
  }

  /** An integer as a template literal prints it: a minus sign, then the
      digits of its magnitude. */
  function IntToString(n: int): (r: string)
    ensures |r| > 0
    ensures (r[0] == '-') <==> n < 0
  {
    if n < 0 then "-" + NatToString(-n) else NatToString(n)
  }
}

=== FILE: page_controls.dfy ===
/** The page controls the character grid renders between its Previous and
    Next buttons. With at most three pages: every page number. Otherwise: the
    first and last pages; a button of its own for the current page only when
    it lies strictly between them, followed by its successor only when that
    is below the last page; and an ellipsis after page 1 when the current
    page is beyond 2 and before the last page when `current + 1 < total - 1`.
    On page 1 the strip is just `1 … last`; a current page outside
    `1..total` shows neither itself nor a successor. */
module PageControls {

  /** One list item of the control strip. `active` is the highlighted item;
      `clickable` says whether its button has a click handler. */
  datatype Control = Page(number: int, active: bool, clickable: bool) | Ellipsis

  predicate IsActive(c: Control) {
    c.Page? && c.active
  }

  /** The buttons `from..total`, each clickable, the one equal to `current`
      highlighted: the loop of the few-pages branch. */
  function Ascending(from: int, total: int, current: int): (r: seq<Control>)
    ensures |r| == if from <= total then total - from + 1 else 0
    ensures forall i :: 0 <= i < |r| ==> r[i] == Page(from + i, current == from + i, true)
    decreases total - from
  {
    if from > total then []
    else [Page(from, current == from, true)] + Ascending(from + 1, total, current)
  }

  /** `renderPagination` for page `current` of `total` pages. Every page
      button it shows points at an existing page. */
  function Pagination(current: int, total: int): (r: seq<Control>)
    ensures forall i :: 0 <= i < |r| && r[i].Page? ==> 1 <= r[i].number <= total
    // up to three pages: every page in order, clickable, no ellipsis
    ensures total <= 3 ==> |r| == (if total < 0 then 0 else total)
    ensures total <= 3 ==> forall i :: 0 <= i < |r| ==> r[i] == Page(i + 1, current == i + 1, true)
  {
    if total <= 3 then
      Ascending(1, total, current)
    else
      [Page(1, current == 1, true)]
      + (if current > 2 then [Ellipsis] else [])
      + (if current > 1 && current < total then
           [Page(current, true, false)]
           + (if current + 1 < total then [Page(current + 1, false, true)] else [])
         else [])
      + (if current + 1 < total - 1 then [Ellipsis] else [])
      + [Page(total, current == total, true)]
  }

  /** The number of highlighted items. */
  function CountActive(r: seq<Control>): (n: nat)
    ensures n <= |r|
    ensures n == 0 <==> forall i :: 0 <= i < |r| ==> !IsActive(r[i])
  {
    if r == [] then 0
    else (if IsActive(r[0]) then 1 else 0) + CountActive(r[1..])
  }

  /** The shapes the many-pages branch can take, one per position of the
      current page. */
  lemma ManyPagesShape(current: int, total: int)
    requires 3 < total && 1 <= current <= total
    ensures current == 1 ==>
      Pagination(current, total) == [Page(1, true, true), Ellipsis, Page(total, false, true)]
    ensures current == 2 && total == 4 ==>
      Pagination(current, total)
        == [Page(1, false, true), Page(2, true, false), Page(3, false, true), Page(4, false, true)]
    ensures current == 2 && total > 4 ==>
      Pagination(current, total)
        == [Page(1, false, true), Page(2, true, false), Page(3, false, true), Ellipsis,
            Page(total, false, true)]
    ensures 2 < current && current + 2 == total ==>
      Pagination(current, total)
        == [Page(1, false, true), Ellipsis, Page(current, true, false),
            Page(current + 1, false, true), Page(total, false, true)]
    ensures 2 < current && current + 2 < total ==>
      Pagination(current, total)
        == [Page(1, false, true), Ellipsis, Page(current, true, false),
            Page(current + 1, false, true), Ellipsis, Page(total, false, true)]
    ensures current + 1 == total ==>
      Pagination(current, total)
        == [Page(1, false, true), Ellipsis, Page(current, true, false), Page(total, false, true)]
    ensures current == total ==>
      Pagination(current, total) == [Page(1, false, true), Ellipsis, Page(total, true, true)]
  {
  }

  /** A strip with exactly one highlighted position has highlight count 1. */
  lemma {:induction false} CountActiveSingle(r: seq<Control>, k: int)
    requires 0 <= k < |r| && IsActive(r[k])
    requires forall i :: 0 <= i < |r| && i != k ==> !IsActive(r[i])
    ensures CountActive(r) == 1
  {
    if k == 0 {
      assert forall i :: 0 <= i < |r[1..]| ==> !IsActive(r[1..][i]) by {
        forall i | 0 <= i < |r[1..]| ensures !IsActive(r[1..][i]) {
          assert r[1..][i] == r[i + 1];
        }
      }
    } else {
      assert !IsActive(r[0]);
      assert forall i :: 0 <= i < |r[1..]| && i != k - 1 ==> !IsActive(r[1..][i]) by {
        forall i | 0 <= i < |r[1..]| && i != k - 1 ensures !IsActive(r[1..][i]) {
          assert r[1..][i] == r[i + 1];
        }
      }
      CountActiveSingle(r[1..], k - 1);
    }
  }

  /** The layout a control strip for page `current` of `total` must have: it
      starts at page 1 and ends at the last page, the shown numbers strictly
      increase, neighbouring buttons carry consecutive numbers, and an
      ellipsis only ever stands between two buttons whose numbers leave a gap. */
  predicate Layout(r: seq<Control>, total: int) {
    && |r| >= 1
    && r[0].Page? && r[0].number == 1
    && r[|r| - 1].Page? && r[|r| - 1].number == total
    && (forall i, j :: 0 <= i < j < |r| && r[i].Page? && r[j].Page? ==> r[i].number < r[j].number)
    && (forall i :: 0 <= i < |r| - 1 && r[i].Page? && r[i + 1].Page? ==>
          r[i + 1].number == r[i].number + 1)
    && (forall i :: 0 <= i < |r| && r[i].Ellipsis? ==>
          && 0 < i < |r| - 1 && r[i - 1].Page? && r[i + 1].Page?
          && r[i - 1].number + 1 < r[i + 1].number)
  }

  /** The gap-free strip of the few-pages branch has the layout. */
  lemma AscendingLayout(current: int, total: int)
    requires 1 <= total
    ensures Layout(Ascending(1, total, current), total)
  {
  }

  /** Layout of the strips `1 … t` and `1 2 3 (…) t`. */
  lemma LayoutEdges(t: int)
    requires 3 < t
    ensures Layout([Page(1, true, true), Ellipsis, Page(t, false, true)], t)
    ensures Layout([Page(1, false, true), Ellipsis, Page(t, true, true)], t)
    ensures t == 4 ==>
      Layout([Page(1, false, true), Page(2, true, false), Page(3, false, true),
              Page(4, false, true)], t)
    ensures t > 4 ==>
      Layout([Page(1, false, true), Page(2, true, false), Page(3, false, true), Ellipsis,
              Page(t, false, true)], t)
  {
  }

  /** Layout of the strips `1 … c c+1 t`, `1 … c c+1 … t` and `1 … c t`. */
  lemma LayoutMiddle(c: int, t: int)
    requires 2 < c && c + 1 <= t
    ensures c + 2 == t ==>
      Layout([Page(1, false, true), Ellipsis, Page(c, true, false), Page(c + 1, false, true),
              Page(t, false, true)], t)
    ensures c + 2 < t ==>
      Layout([Page(1, false, true), Ellipsis, Page(c, true, false), Page(c + 1, false, true),
              Ellipsis, Page(t, false, true)], t)
    ensures c + 1 == t ==>
      Layout([Page(1, false, true), Ellipsis, Page(c, true, false), Page(t, false, true)], t)
  {
  }

  /** For a current page within `1..total` the strip has the layout above,
      the current page is among the shown numbers, and exactly one item is
      highlighted: the current page. */
  lemma PaginationWellFormed(current: int, total: int)
    requires 1 <= current <= total
    ensures var r := Pagination(current, total);
      && Layout(r, total)
      && (exists i :: 0 <= i < |r| && r[i].Page? && r[i].number == current)
      && (forall i :: 0 <= i < |r| ==> (IsActive(r[i]) <==> r[i].Page? && r[i].number == current))
      && CountActive(r) == 1
  {
    var r := Pagination(current, total);
    var k := ActiveIndex(current, total);
    CountActiveSingle(r, k);
    if total <= 3 {
      AscendingLayout(current, total);
    } else {
      ManyPagesShape(current, total);
      if current == 1 || current == total || current == 2 {
        LayoutEdges(total);
      } else {
        LayoutMiddle(current, total);
      }
    }
  }

  /** Where the current page sits in the strip. */
  lemma ActiveIndex(current: int, total: int) returns (k: int)
    requires 1 <= current <= total
    ensures var r := Pagination(current, total);
      && 0 <= k < |r| && r[k].Page? && r[k].number == current
      && (forall i :: 0 <= i < |r| ==> (IsActive(r[i]) <==> i == k))
      && (forall i :: 0 <= i < |r| && r[i].Page? ==> (r[i].number == current <==> i == k))
  {
    if total <= 3 {
      k := current - 1;
    } else {
      ManyPagesShape(current, total);
      if current == 1 {
        k := 0;
      } else if current == 2 {
        k := 1;
      } else {
        k := 2;
      }
    }
  }

  /** With more than three pages, an ellipsis precedes the current page
      exactly when it is beyond page 2, and one follows it exactly when
      `current + 1 < total - 1`; there are no other ellipses. */
  lemma EllipsisPlacement(current: int, total: int)
    requires 3 < total && 1 <= current <= total
    ensures var r := Pagination(current, total);
      forall k :: 0 <= k < |r| && IsActive(r[k]) ==>
        && ((exists i :: 0 <= i < k && r[i].Ellipsis?) <==> current > 2)
        && ((exists i :: k < i < |r| && r[i].Ellipsis?) <==> current + 1 < total - 1)
  {
    var r := Pagination(current, total);
    var k := ActiveIndex(current, total);
    ManyPagesShape(current, total);
    if current == 1 {
      assert r[1].Ellipsis?;
    } else if current == 2 {
      if total > 4 {
        assert r[3].Ellipsis?;
      }
    } else if current + 2 < total {
      assert r[1].Ellipsis? && r[4].Ellipsis?;
    } else {
      assert r[1].Ellipsis?;
    }
  }

  /** Something is highlighted exactly when the current page is one of the
      pages: a page number of zero, or one past the page count, leaves the
      strip without a highlight. */
  lemma HighlightIffInRange(current: int, total: int)
    ensures var r := Pagination(current, total);
      (exists i :: 0 <= i < |r| && IsActive(r[i])) <==> 1 <= current <= total
  {
    var r := Pagination(current, total);
    if 1 <= current <= total {
      PaginationWellFormed(current, total);
      var i :| 0 <= i < |r| && r[i].Page? && r[i].number == current;
      assert IsActive(r[i]);
    } else if total > 3 {
      assert forall i :: 0 <= i < |r| ==> !IsActive(r[i]);
    }
  }
}

=== FILE: paging.dfy ===
/** Client-side pagination of the character grid: the resolved character list
    is cut into windows of twenty, and the `info` record of a page (next,
    previous, page count) is computed from the page number and the list
    length alone. */
module Paging {
  import opened Js

  /** Characters shown per page of the grid. */
  const PageSize: nat := 20

  /** `Math.ceil(count / 20)`: the number of pages a list of `count`
      characters fills. */
  function PageCount(count: nat): (r: nat)
    ensures count <= r * PageSize
    ensures r == 0 || (r - 1) * PageSize < count
    ensures r == 0 <==> count == 0
  {
    CeilDiv(count, PageSize)
  }

  /** `items.slice((page - 1) * 20, page * 20)`: the window page `page` shows.
      Whatever the page number, a window never exceeds the page size. */
  function Window<T>(items: seq<T>, page: int): (w: seq<T>)
    ensures |w| <= PageSize
  {
    Slice(items, (page - 1) * PageSize, page * PageSize)
  }

  /** `info.next`: the following page number while one exists, else null. */
  function NextPage(page: int, count: nat): (r: Option<int>)
    ensures r.Some? <==> page < PageCount(count)
    ensures r.Some? ==> r.value == page + 1
  {
    if page < PageCount(count) then Some(page + 1) else None
  }

  /** `info.prev`: the preceding page number after page one, else null. */
  function PrevPage(page: int): (r: Option<int>)
    ensures r.Some? <==> page > 1
    ensures r.Some? ==> r.value == page - 1
  {
    if page > 1 then Some(page - 1) else None
  }

  /** Next is set exactly when there is another page of characters to show:
      for any page from 0 on, `next` is non-null iff the following page's
      window is not empty. */
  lemma NextMeansMoreToShow<T>(items: seq<T>, page: int)
    requires page >= 0
    ensures NextPage(page, |items|).Some? <==> Window(items, page + 1) != []
  {
    WindowContents(items, page + 1);
  }

  /** On the real pages, `next` and `prev` undo each other: the page before
      the next one is this page, and the page after the previous one is this
      page. */
  lemma NextPrevInverse(page: int, count: nat)
    ensures 1 <= page < PageCount(count) ==> PrevPage(NextPage(page, count).value) == Some(page)
    ensures 1 < page <= PageCount(count) ==> NextPage(PrevPage(page).value, count) == Some(page)
  {
  }

  /** A real page (1 or later) shows the characters at positions
      `(page-1)*20` onwards, in order; every page before the last is full, and
      pages past the last are empty. */
  lemma WindowContents<T>(items: seq<T>, page: int)
    requires page >= 1
    ensures var w := Window(items, page);
      && (forall i :: 0 <= i < |w| ==>
            (page - 1) * PageSize + i < |items| && w[i] == items[(page - 1) * PageSize + i])
      && (page < PageCount(|items|) ==> |w| == PageSize)
      && (page == PageCount(|items|) ==> |w| == |items| - (page - 1) * PageSize)
      && (page > PageCount(|items|) ==> w == [])
  {
    var n := PageCount(|items|);
    if page <= n {
      assert (page - 1) * PageSize <= (n - 1) * PageSize;
    } else {
      assert n * PageSize <= (page - 1) * PageSize;
    }
  }

  /** Page zero, which the slice arithmetic turns into `slice(-20, 0)`, is
      empty. */
  lemma PageZeroIsEmpty<T>(items: seq<T>)
    ensures Window(items, 0) == []
  {
  }

  /** A page number below zero makes both slice bounds negative, so the
      window counts back from the end of the list: page `-k` shows the
      twenty characters that end `20*k` before the end. */
  lemma NegativePageCountsFromEnd<T>(items: seq<T>, k: int)
    requires k >= 1
    requires (k + 1) * PageSize <= |items|
    ensures Window(items, -k) == items[|items| - (k + 1) * PageSize .. |items| - k * PageSize]
  {
  }

  /** The windows of pages `from..to` laid end to end. */
  function Windows<T>(items: seq<T>, from: int, to: int): seq<T>
    decreases to - from
  {
    if from > to then [] else Window(items, from) + Windows(items, from + 1, to)
  }

  /** The window of a real page as a slice of the list itself. */
  lemma WindowIsRun<T>(items: seq<T>, page: int)
    requires 1 <= page <= PageCount(|items|)
    ensures (page - 1) * PageSize < |items|
    ensures page < PageCount(|items|) ==>
      && page * PageSize <= |items|
      && Window(items, page) == items[(page - 1) * PageSize..page * PageSize]
    ensures page == PageCount(|items|) ==> Window(items, page) == items[(page - 1) * PageSize..]
  {
    WindowContents(items, page);
  }

  /** The windows of pages `from` through the last one concatenate to the
      suffix of the list that page `from` starts. */
  lemma {:induction false} WindowsFromPage<T>(items: seq<T>, from: int)
    requires 1 <= from <= PageCount(|items|)
    ensures (from - 1) * PageSize < |items|
    ensures Windows(items, from, PageCount(|items|)) == items[(from - 1) * PageSize..]
    decreases PageCount(|items|) - from
  {
    var n := PageCount(|items|);
    WindowIsRun(items, from);
    var start := (from - 1) * PageSize;
    if from == n {
      assert Windows(items, from + 1, n) == [];
    } else {
      WindowsFromPage(items, from + 1);
      var mid := from * PageSize;
      assert items[start..] == items[start..mid] + items[mid..];
    }
  }

  /** Paging through pages `1..PageCount` shows every character exactly
      once, in the order the episode lists them. */
  lemma PagesCoverList<T>(items: seq<T>)
    ensures Windows(items, 1, PageCount(|items|)) == items
  {
    if |items| > 0 {
      WindowsFromPage(items, 1);
    }
  }
}
